=== FILE: README.md ===
# Fantasy league site: rankings, schedule, draft board and rules search

A Dafny model of the page logic of a fantasy-football league web site.

- **Team power rankings** (`TeamRankings`). Twelve teams each hold a rank that is meant to be a permutation of 1..N. The commissioner changes ranks in two ways. Typing a rank applies a shift rule: the other teams between the old and new rank move by one. Dragging a card cuts the team out of the rank-sorted list, reinserts it at the drop position, and renumbers every team to its list position. The model proves that both keep the ranking dense. It also proves that dropping at 0-based position `p` gives the same team records as typing rank `p + 1`. Writeups, the rank-edit range gate and the default seeding are modelled too.
- **Weekly matchups** (`WeeklyMatchups`). The 13-week schedule with six matchups per week, the expanded-week set, and the three inline editors. Each save changes one matchup and leaves the rest alone. The prediction save is skipped when no winner is chosen or the margin does not parse.
- **Draft board** (`DraftBoard`). The round tabs, the per-round and per-team pick selectors, the expanded-team set and the position badge colours.
- **Rules search** (`RuleSearch`). The case-insensitive search over rule titles, rule contents and category names.

Shared pieces: `Wrappers` (an `Option` type), `Collections` (filter, map, splice, set toggle), `Sorting` (a stable sort by an integer key) and `Text` (decimal rendering, JavaScript whitespace trimming, ASCII lower-casing, substring search).

The remote store is not modelled. Each rank or writeup update is decided by a `writesSucceed` flag. The page commits its new local state only when every write succeeds (src/pages/TeamPowerRankings.tsx:207, 240). Otherwise it keeps its old state. The page does not update optimistically and then reload, and the model follows the code here. A drop index is not clamped in the code. The model instead requires a drop index inside the list. In a typed rank edit, an unknown team id or a rank outside 1..12 makes the code return quietly with nothing changed rather than report an error. The model returns the ranking unchanged in the same way. A drop of an unknown team is different. There `findIndex` gives -1, and `splice(-1, 1)` moves the last team. The model excludes that drop (see the `TeamRankings.HandleDrop` line under "## Left out").

## Model

| member | source | states |
|---|---|---|
| TeamRankings.SortByRank | src/pages/TeamPowerRankings.tsx:103 | the rendered list holds the same teams, with ranks in nondecreasing order |
| Sorting.SortByStable | src/pages/TeamPowerRankings.tsx:103 | the sort is stable: teams with equal rank keep their relative order, as `Array.prototype.sort` guarantees |
| TeamRankings.SortedDenseIsConsecutive | src/pages/TeamPowerRankings.tsx:103 | on a ranking that is a permutation of 1..N, the sorted view holds rank i+1 at position i |
| TeamRankings.IndexOfId | src/pages/TeamPowerRankings.tsx:274 | finds the first position holding the id; None exactly when no team has it |
| TeamRankings.MoveToRank | src/pages/TeamPowerRankings.tsx:159-191 | unknown id or same rank: nothing changes; otherwise the mover takes the new rank; moving down, ranks in (old, new] drop by one; moving up, ranks in [new, old) rise by one; other ranks, and every id, name and writeup, stay put |
| TeamRankings.MoveToRankKeepsDense | src/pages/TeamPowerRankings.tsx:171-190 | a typed move to a rank in 1..N keeps ranks a permutation of 1..N and ids unique |
| TeamRankings.MoveToRankRoundTrip | src/pages/TeamPowerRankings.tsx:171-190 | typing the old rank back after a typed move restores the ranking exactly |
| TeamRankings.SaveRankEdit | src/pages/TeamPowerRankings.tsx:122-129 | a missing parse or a rank outside 1..bound changes nothing; failed writes change nothing; otherwise it is the typed move, and density is kept when the bound is N |
| TeamRankings.Renumber | src/pages/TeamPowerRankings.tsx:236-239 | each team takes its 1-based position as rank; the result is dense and other fields are kept |
| Collections.Reinsert | src/pages/TeamPowerRankings.tsx:277-279 | the splice pair keeps length and contents and puts the dragged entry at the drop index |
| Collections.ReinsertSource | src/pages/TeamPowerRankings.tsx:277-279 | names the old position each entry of the spliced list came from |
| Collections.ReinsertRoundTrip | src/pages/TeamPowerRankings.tsx:277-279 | dragging the entry back from the drop index to its old index restores the list |
| TeamRankings.HandleDrop | src/pages/TeamPowerRankings.tsx:269-285 | dropping a team at its own position, or a failed write, leaves the ranking unchanged |
| TeamRankings.DropRenumbers | src/pages/TeamPowerRankings.tsx:214-245 | after a real drop the dragged team sits at the drop index, ranks are 1..N by position, and the same teams keep their ids, names and writeups |
| TeamRankings.DropInPlace | src/pages/TeamPowerRankings.tsx:274-275 | a drop at the team's own position and typing its own rank both change nothing |
| TeamRankings.DropIsSortedTyped | src/pages/TeamPowerRankings.tsx:269-285 | for a real drop, the dropped list equals the rank-sorted list after typing rank p+1 for the dragged team, entry by entry |
| TeamRankings.DropMatchesTypedRank | src/pages/TeamPowerRankings.tsx:269-285 | on a dense ranking with unique ids, dropping at position p gives the same team records as typing rank p+1 |
| Text.Trim | src/pages/TeamPowerRankings.tsx:116 | `trim()` gives a block of the text that neither starts nor ends with whitespace, with only whitespace before and after it |
| Text.TrimEmptyIffBlank | src/pages/TeamPowerRankings.tsx:116 | `trim()` yields the empty string exactly when the text is all JavaScript whitespace |
| TeamRankings.WriteupToStore | src/pages/TeamPowerRankings.tsx:116 | a blank edit is stored as the placeholder, any other edit verbatim |
| TeamRankings.StartEditing | src/pages/TeamPowerRankings.tsx:105-108 | the placeholder opens as an empty buffer, any other writeup as itself |
| TeamRankings.EditUntouchedKeepsWriteup | src/pages/TeamPowerRankings.tsx:105-120 | opening a writeup and saving it untouched stores the same writeup |
| TeamRankings.SaveWriteup | src/pages/TeamPowerRankings.tsx:115-152 | only the targeted team's writeup changes, and only when the write succeeds; ids, names and ranks are kept |
| TeamRankings.SaveUntouchedWriteup | src/pages/TeamPowerRankings.tsx:105-152 | with unique ids, opening a team's placeholder or non-blank writeup and saving it untouched gives the ranking back, whatever the write outcome |
| TeamRankings.SeedTeams | src/pages/TeamPowerRankings.tsx:59-99 | the default names in order, ranked 1..N, with the placeholder writeup; the ranking is dense |
| TeamRankings.FallbackTeams | src/pages/TeamPowerRankings.tsx:92-98 | the local fallback has twelve teams; team i+1 has id "i+1", the i-th default name, rank i+1 and the placeholder writeup; ids are distinct and the ranking is dense |
| Text.NatToString | src/pages/TeamPowerRankings.tsx:93 | `toString` of a non-negative integer is a non-empty string of decimal digits |
| Text.NatToStringRoundTrip | src/pages/TeamPowerRankings.tsx:93 | reading the digits back gives the number, so the rendering loses nothing |
| Text.NatToStringInjective | src/pages/TeamPowerRankings.tsx:93 | distinct numbers render as distinct strings, so the fallback ids are distinct |
| RuleSearch.MatchesIgnoresCase | src/pages/LeagueRules.tsx:131-135 | a rule matches a term exactly when it matches the lower-cased term: both sides are lower-cased before `includes` |
| RuleSearch.EmptyTermMatchesAll | src/pages/LeagueRules.tsx:131-135 | the empty term is contained in every title, so every rule matches it |
| RuleSearch.Narrow | src/pages/LeagueRules.tsx:128-136 | a category keeps its name and exactly the rules that match, in order, each as many times as in the category |
| RuleSearch.FilterRules | src/pages/LeagueRules.tsx:126-137 | an empty term returns the rules unchanged; otherwise only matching rules survive, each narrowed category that is non-empty is kept as many times as it occurs and every empty one is dropped, order is kept, and every matching rule is kept |
| RuleSearch.CategoryNameMatchKeepsAll | src/pages/LeagueRules.tsx:134 | a non-empty category whose name contains the term is kept whole |
| DraftBoard.Rounds | src/pages/Draft.tsx:254 | the round tabs are exactly 1..16, increasing |
| DraftBoard.RoundPicks | src/pages/Draft.tsx:256-258 | exactly the picks of that round, each as many times as on the board, in board order |
| DraftBoard.TeamPicks | src/pages/Draft.tsx:260-262 | exactly the picks of that team, each as many times as on the board, ordered by round |
| DraftBoard.TeamPicksStable | src/pages/Draft.tsx:260-262 | within one round a team's picks keep their board order |
| DraftBoard.ToggleTeam | src/pages/Draft.tsx:264-272 | flips whether the team is expanded and leaves every other team as it was |
| DraftBoard.ToggleTeamTwice | src/pages/Draft.tsx:264-272 | toggling the same team twice restores the set |
| DraftBoard.PositionColor | src/pages/Draft.tsx:274-284 | an unknown position gets the default badge |
| DraftBoard.UnknownPositionLooksLikeDefense | src/pages/Draft.tsx:274-284 | the default badge is the defence badge, and the six known positions have six distinct badges |
| WeeklyMatchups.MatchupIdInjective | src/pages/PowerRankings.tsx:32-172 | two different (week, game) pairs never share an id |
| WeeklyMatchups.Schedule | src/pages/PowerRankings.tsx:32-172 | week w+1 plays the pairings of row w of the schedule table, in order: game k has id "(w+1)-(k+1)", the placeholder writeup and no prediction |
| WeeklyMatchups.ScheduleIdsUnique | src/pages/PowerRankings.tsx:32-172 | no two matchups of the schedule share an id |
| WeeklyMatchups.SeasonShape | src/pages/PowerRankings.tsx:32-172 | the season has weeks 1..13 in order, six games each, ids "week-game", all distinct |
| WeeklyMatchups.InitialPage | src/pages/PowerRankings.tsx:21-35 | the page opens on the schedule with only week 1 expanded and no editor open |
| WeeklyMatchups.ToggleWeek | src/pages/PowerRankings.tsx:174-182 | flips one week's membership, leaves other weeks and the schedule unchanged |
| WeeklyMatchups.ToggleWeekTwice | src/pages/PowerRankings.tsx:174-182 | toggling the same week twice restores the page |
| WeeklyMatchups.UpdateMatchup | src/pages/PowerRankings.tsx:201-216 | every matchup with the id, in every week with the number, gets the change; nothing else moves or changes |
| WeeklyMatchups.UpdateWithSameValue | src/pages/PowerRankings.tsx:201-216 | an update that writes back what a matchup already holds changes nothing |
| WeeklyMatchups.StartEditing | src/pages/PowerRankings.tsx:184-187 | opens the writeup editor; the placeholder opens as an empty buffer, other text as itself |
| WeeklyMatchups.SaveEdit | src/pages/PowerRankings.tsx:201-219 | only the target matchup's writeup becomes the buffer text; the writeup editor closes and other buffers are kept |
| WeeklyMatchups.UntouchedWriteupEdit | src/pages/PowerRankings.tsx:184-219 | opening and saving untouched keeps a real writeup, but turns the placeholder into an empty writeup |
| WeeklyMatchups.StartEditingTeams | src/pages/PowerRankings.tsx:189-193 | opens the team editor with the current names and leaves the other editors alone |
| WeeklyMatchups.SaveTeamEdit | src/pages/PowerRankings.tsx:221-240 | only the target matchup's two team names change; the team editor closes |
| WeeklyMatchups.UntouchedTeamEdit | src/pages/PowerRankings.tsx:189-240 | opening the team editor and saving untouched changes no matchup |
| WeeklyMatchups.SavePredictionEdit | src/pages/PowerRankings.tsx:242-264 | with no winner or an unparsable margin the schedule is unchanged; otherwise only the target's prediction is set; the prediction editor always closes |
| WeeklyMatchups.SavePredictionSettles | src/pages/PowerRankings.tsx:242-264 | a save empties the prediction buffers, so a second save right after changes nothing |
| WeeklyMatchups.CancelEdit | src/pages/PowerRankings.tsx:266-275 | closes all three editors and empties every buffer, leaving the schedule and expanded weeks alone |
| WeeklyMatchups.CancelUndoesStart | src/pages/PowerRankings.tsx:184-275 | opening an editor on an idle page and cancelling gives the page back |

## Left out

- The remote store (loading, inserting, updating rows, error alerts, console logging) is not modelled. Each write outcome is the `writesSucceed` parameter, and a loaded list is just an input sequence.
- TeamRankings.SeedTeams: the store-assigned ids after a successful seed are its `ids` parameter. It also assumes that the store returns the inserted rows in insertion order, with `team_name`, `rank_position` and `writeup` as written. Its "names in order" and density guarantees rest on that assumption.
- React plumbing is not modelled: hooks, effects, routing, the drag-start/over/leave handlers, and all markup. The dragged team and drop index arrive as arguments.
- The rank and writeup editing buffers of the rankings page (`editingTeam`, `editingRank`, `tempRank`, its `cancelEdit`) are not modelled as state. They only hold text between events, and `SaveRankEdit` takes the parsed value directly.
- `startEditingRank` fills the rank buffer with the rank's `toString` (the decimal rendering that `Text.NatToString` models). It is left out because the buffer is not modelled: `SaveRankEdit` takes the parsed rank as an `Option<int>` parameter. `startEditingPrediction` renders a float margin and is left out because float formatting is not modelled.
- `parseInt` and `parseFloat` are not modelled. Their outcomes are `Option` parameters (None for NaN), and the margin is a `real`.
- TeamRankings.SaveRankEdit: the hard-coded bound 12 is a parameter, and density is proved only when it equals the team count. Every list this page creates has twelve teams (`SeedTeams` on the default names, `FallbackTeams`). A loaded list is any input, though. A store holding another number of teams can lose density through the fixed bound: on three teams, typing rank 12 passes the gate.
- TeamRankings.HandleDrop: requires that the dragged team is in the list and the drop index lies inside it. For an unknown team the code would splice at -1, moving the last team, and for a drop index past the end it would append. The page never produces such a drop, because only rendered cards are dragged and dropped.
- The concrete data tables (the rules list, the 192 draft picks, the 13×6 schedule pairings) are parameters rather than transcribed. `SeasonShape` states the schedule's shape for any table of that size.
- The schedule's fallback branch ("Team 1".."Team 12") is dead: every week 1..13 is listed explicitly, so it is left out.
- RuleSearch.Matches: `toLowerCase` is modelled on ASCII letters only, without full Unicode case mapping.
- The highlighting of search hits (a regular expression built from the term) is not modelled.
- The Home, History and Punishments pages show static content and are not part of this model; neither are the store client in src/lib/supabase.ts and the routing in src/App.tsx.
- WeeklyMatchups.SaveEdit stores the buffer verbatim, so an empty save leaves an empty writeup rather than the placeholder. This is the code's behaviour, stated by `UntouchedWriteupEdit`, and not corrected here.

=== FILE: collections.dfy ===
/** Generic operations over sequences and sets that the pages use through
    JavaScript's `Array.prototype.filter` and a copy-then-toggle of a `Set`. */
module Collections {

  /** `a` is `b` with some elements dropped, the rest kept in their order. */
  predicate IsSubsequence<T(==)>(a: seq<T>, b: seq<T>)
    decreases |b|
  {
    if a == [] then true
    else if b == [] then false
    else if a[0] == b[0] then IsSubsequence(a[1..], b[1..])
    else IsSubsequence(a, b[1..])
  }

  /** `Array.prototype.filter`: the elements of `s` satisfying `keep`, in order. */
  function Filter<T(==,!new)>(s: seq<T>, keep: T -> bool): (r: seq<T>)
    ensures forall x :: x in r <==> x in s && keep(x)
    ensures forall x :: multiset(r)[x] == (if keep(x) then multiset(s)[x] else 0)
    ensures IsSubsequence(r, s)
    ensures |r| <= |s|
    decreases |s|
  {
    if s == [] then []
    else
      assert s == [s[0]] + s[1..];
      if keep(s[0]) then [s[0]] + Filter(s[1..], keep)
      else Filter(s[1..], keep)
  }

  /** Filtering with a test every element passes changes nothing. */
  lemma {:induction false} FilterKeepsAll<T(!new)>(s: seq<T>, keep: T -> bool)
    requires forall x :: x in s ==> keep(x)
    ensures Filter(s, keep) == s
    decreases |s|
  {
    if s != [] {
      FilterKeepsAll(s[1..], keep);
    }
  }

  /** `Array.prototype.map`. */
  function MapSeq<T, U>(s: seq<T>, f: T -> U): (r: seq<U>)
    ensures |r| == |s|
    ensures forall i :: 0 <= i < |s| ==> r[i] == f(s[i])
  {
    seq(|s|, i requires 0 <= i < |s| => f(s[i]))
  }

  /** Mapping two permutations of each other gives permutations of each other. */
  lemma {:induction false} MapSeqPermutation<T, U>(a: seq<T>, b: seq<T>, f: T -> U)
    requires multiset(a) == multiset(b)
    ensures multiset(MapSeq(a, f)) == multiset(MapSeq(b, f))
    decreases |a|
  {
    if a != [] {
      assert a[0] in multiset(b);
      var j :| 0 <= j < |b| && b[j] == a[0];
      var b' := b[..j] + b[j + 1..];
      RemoveMatching(a, b, j);
      MapSeqPermutation(a[1..], b', f);
      MapSeqWithout(b, j, f);
      assert MapSeq(a, f) == [f(a[0])] + MapSeq(a[1..], f);
    }
  }

  lemma RemoveMatching<T>(a: seq<T>, b: seq<T>, j: nat)
    requires multiset(a) == multiset(b)
    requires a != [] && j < |b| && b[j] == a[0]
    ensures multiset(a[1..]) == multiset(b[..j] + b[j + 1..])
  {
    var pre, post := b[..j], b[j + 1..];
    assert b == pre + [b[j]] + post;
    assert a == [a[0]] + a[1..];
    forall y ensures multiset(a[1..])[y] == multiset(pre + post)[y] {
      assert multiset(a)[y] == multiset(b)[y];
    }
    assert multiset(a[1..]) == multiset(pre + post);
  }

  lemma MapSeqWithout<T, U>(b: seq<T>, j: nat, f: T -> U)
    requires j < |b|
    ensures multiset(MapSeq(b, f)) == multiset(MapSeq(b[..j] + b[j + 1..], f)) + multiset{f(b[j])}
  {
    MapSeqCut(b, j, f);
    MultisetWithout(MapSeq(b, f), j);
  }

  /** Mapping commutes with cutting out one position. */
  lemma MapSeqCut<T, U>(b: seq<T>, j: nat, f: T -> U)
    requires j < |b|
    ensures MapSeq(b[..j] + b[j + 1..], f) == MapSeq(b, f)[..j] + MapSeq(b, f)[j + 1..]
  {
    var m := MapSeq(b, f);
    var without := b[..j] + b[j + 1..];
    var rest := MapSeq(without, f);
    var cut := m[..j] + m[j + 1..];
    assert |rest| == |cut|;
    forall i | 0 <= i < |rest| ensures rest[i] == cut[i] {
      if i < j {
        assert without[i] == b[i];
      } else {
        assert without[i] == b[i + 1];
      }
    }
  }

  /** Cutting out position `j` removes one copy of `s[j]` from the multiset. */
  lemma MultisetWithout<T>(s: seq<T>, j: nat)
    requires j < |s|
    ensures multiset(s) == multiset(s[..j] + s[j + 1..]) + multiset{s[j]}
  {
    assert s == s[..j] + [s[j]] + s[j + 1..];
  }

  /** Sequences agreeing at every position are equal. */
  lemma SameEntries<T>(a: seq<T>, b: seq<T>)
    requires |a| == |b|
    requires forall i :: 0 <= i < |a| ==> a[i] == b[i]
    ensures a == b
  {
  }

  // ---------------------------------------------------------------------------
  // `Array.prototype.splice`, as the drag-and-drop handler uses it
  // ---------------------------------------------------------------------------

  /** Where the element at position `i` after moving `from` to `to` came from. */
  function SourceIndex(from: nat, to: nat, i: nat): nat {
    if from < to then
      if i < from || i > to then i else if i == to then from else i + 1
    else if to < from then
      if i < to || i > from then i else if i == to then from else i - 1
    else i
  }

  /** `splice(i, 1)`: the sequence without its element at `i`. */
  function RemoveAt<T>(s: seq<T>, i: nat): (r: seq<T>)
    requires i < |s|
    ensures |r| == |s| - 1
    ensures forall k :: 0 <= k < |r| ==> r[k] == if k < i then s[k] else s[k + 1]
    ensures multiset(r) + multiset{s[i]} == multiset(s)
  {
    assert s == s[..i] + [s[i]] + s[i + 1..];
    s[..i] + s[i + 1..]
  }

  /** `splice(to, 0, x)`: `x` placed at position `to`, later elements shifted right. */
  function InsertAt<T>(s: seq<T>, to: nat, x: T): (r: seq<T>)
    requires to <= |s|
    ensures |r| == |s| + 1
    ensures forall k :: 0 <= k < |r| ==> r[k] == if k < to then s[k] else if k == to then x else s[k - 1]
    ensures multiset(r) == multiset(s) + multiset{x}
  {
    assert s == s[..to] + s[to..];
    s[..to] + [x] + s[to..]
  }

  /** The drag-and-drop splice pair: the element at `from` is cut out and
      reinserted at `to`. */
  function Reinsert<T>(s: seq<T>, from: nat, to: nat): (r: seq<T>)
    requires from < |s| && to < |s|
    ensures |r| == |s|
    ensures multiset(r) == multiset(s)
    ensures r[to] == s[from]
  {
    InsertAt(RemoveAt(s, from), to, s[from])
  }

  /** Position `i` of the reinserted sequence holds the element from position
      `SourceIndex(from, to, i)`: elements between the two positions shift by
      one towards `from`, the rest stay put. */
  lemma ReinsertSource<T>(s: seq<T>, from: nat, to: nat)
    requires from < |s| && to < |s|
    ensures forall i :: 0 <= i < |s| ==>
      SourceIndex(from, to, i) < |s| && Reinsert(s, from, to)[i] == s[SourceIndex(from, to, i)]
  {
    var rest := RemoveAt(s, from);
    var r := Reinsert(s, from, to);
    forall i | 0 <= i < |s|
      ensures SourceIndex(from, to, i) < |s| && r[i] == s[SourceIndex(from, to, i)]
    {
      if i < to {
        assert r[i] == rest[i];
      } else if i > to {
        assert r[i] == rest[i - 1];
      }
    }
  }

  lemma SourceIndexRoundTrip(from: nat, to: nat, i: nat)
    ensures SourceIndex(from, to, SourceIndex(to, from, i)) == i
  {
  }

  /** Moving an element back to where it came from restores the sequence. */
  lemma ReinsertRoundTrip<T>(s: seq<T>, from: nat, to: nat)
    requires from < |s| && to < |s|
    ensures Reinsert(Reinsert(s, from, to), to, from) == s
  {
    var once := Reinsert(s, from, to);
    var twice := Reinsert(once, to, from);
    ReinsertSource(s, from, to);
    ReinsertSource(once, to, from);
    forall i | 0 <= i < |s| ensures twice[i] == s[i] {
      var j := SourceIndex(to, from, i);
      assert twice[i] == once[j];
      SourceIndexRoundTrip(from, to, i);
    }
  }

  // ---------------------------------------------------------------------------
  // Sets
  // ---------------------------------------------------------------------------

  /** Copy a set and flip the membership of `x`: remove it when present,
      add it when absent. */
  function Toggle<T(!new)>(s: set<T>, x: T): (r: set<T>)
    ensures x in r <==> x !in s
    ensures forall y :: y != x ==> (y in r <==> y in s)
    ensures r - {x} == s - {x}
  {
    if x in s then s - {x} else s + {x}
  }

  /** Toggling the same element twice restores the set. */
  lemma ToggleTwice<T(!new)>(s: set<T>, x: T)
    ensures Toggle(Toggle(s, x), x) == s
  {
  }
}

=== FILE: draft_board.dfy ===
/** The draft board page: the list of picks, viewed one round at a time or
    grouped per team, with a set of expanded team panels and a colour badge
    per position. */
module DraftBoard {
  import opened Collections
  import opened Sorting

  datatype Pick = Pick(round: int, pick: int, team: string, player: string, position: string)

  const RoundCount: int := 16

  /** The round tabs, `Array.from({ length: 16 }, (_, i) => i + 1)`. */
  function Rounds(): (r: seq<int>)
    ensures |r| == RoundCount
    ensures forall x :: x in r <==> 1 <= x <= RoundCount
    ensures forall i, j :: 0 <= i < j < |r| ==> r[i] < r[j]
  {
    var r := seq(RoundCount, i requires 0 <= i < RoundCount => i + 1);
    forall x | 1 <= x <= RoundCount
      ensures x in r
    {
      assert r[x - 1] == x;
    }
    r
  }

  function RoundOf(p: Pick): int {
    p.round
  }

  /** `getRoundPicks`: the picks made in `round`, in board order. */
  function RoundPicks(picks: seq<Pick>, round: int): (r: seq<Pick>)
    ensures forall p :: p in r <==> p in picks && p.round == round
    ensures forall p :: multiset(r)[p] == (if p.round == round then multiset(picks)[p] else 0)
    ensures IsSubsequence(r, picks)
  {
    Filter(picks, (p: Pick) => p.round == round)
  }

  /** `getTeamPicks`: the picks of `team`, stably sorted by round. */
  function TeamPicks(picks: seq<Pick>, team: string): (r: seq<Pick>)
    ensures forall p :: p in r <==> p in picks && p.team == team
    ensures forall p :: multiset(r)[p] == (if p.team == team then multiset(picks)[p] else 0)
    ensures forall i, j :: 0 <= i < j < |r| ==> r[i].round <= r[j].round
  {
    var own := Filter(picks, (p: Pick) => p.team == team);
    var r := SortBy(own, RoundOf);
    assert forall p :: p in r <==> p in own by {
      forall p ensures p in r <==> p in own {
        assert p in r <==> p in multiset(r);
      }
    }
    r
  }

  /** Within one round, a team's picks keep their board order. */
  lemma TeamPicksStable(picks: seq<Pick>, team: string, round: int)
    ensures WithKey(TeamPicks(picks, team), RoundOf, round)
         == WithKey(Filter(picks, (p: Pick) => p.team == team), RoundOf, round)
  {
    SortByStable(Filter(picks, (p: Pick) => p.team == team), RoundOf, round);
  }

  /** `toggleTeam`: flips whether a team's panel is expanded. */
  function ToggleTeam(expanded: set<string>, team: string): (r: set<string>)
    ensures team in r <==> team !in expanded
    ensures forall other :: other != team ==> (other in r <==> other in expanded)
  {
    Toggle(expanded, team)
  }

  lemma ToggleTeamTwice(expanded: set<string>, team: string)
    ensures ToggleTeam(ToggleTeam(expanded, team), team) == expanded
  {
    ToggleTwice(expanded, team);
  }

  const QbStyle: string := "bg-gradient-to-r from-red-500 to-rose-500 text-white"
  const RbStyle: string := "bg-gradient-to-r from-blue-500 to-cyan-500 text-white"
  const WrStyle: string := "bg-gradient-to-r from-emerald-500 to-green-500 text-white"
  const TeStyle: string := "bg-gradient-to-r from-yellow-500 to-orange-500 text-white"
  const KStyle: string := "bg-gradient-to-r from-purple-500 to-violet-500 text-white"
  const DefStyle: string := "bg-gradient-to-r from-gray-500 to-slate-500 text-white"
  const DefaultStyle: string := "bg-gradient-to-r from-gray-500 to-slate-500 text-white"

  predicate IsKnownPosition(position: string) {
    position in ["QB", "RB", "WR", "TE", "K", "DEF"]
  }

  /** `getPositionColor`: the badge classes of a position. */
  function PositionColor(position: string): (r: string)
    ensures !IsKnownPosition(position) ==> r == DefaultStyle
  {
    match position
    case "QB" => QbStyle
    case "RB" => RbStyle
    case "WR" => WrStyle
    case "TE" => TeStyle
    case "K" => KStyle
    case "DEF" => DefStyle
    case _ => DefaultStyle
  }

  /** An unknown position wears the defence badge, and the other five known
      positions each have a badge of their own. */
  lemma UnknownPositionLooksLikeDefense(position: string)
    ensures !IsKnownPosition(position) ==> PositionColor(position) == PositionColor("DEF")
    ensures |{PositionColor("QB"), PositionColor("RB"), PositionColor("WR"),
              PositionColor("TE"), PositionColor("K"), PositionColor("DEF")}| == 6
  {
  }
}

=== FILE: rule_search.dfy ===
/** The search box of the league-rules page: the rules are grouped in
    categories, and a non-empty search term keeps only the rules whose title,
    content or category name contains the term, ignoring case, and drops the
    categories left without rules. */
module RuleSearch {
  import opened Collections
  import Text

  datatype Rule = Rule(title: string, content: string)

  datatype Category = Category(name: string, items: seq<Rule>)

  /** The rule `item` of category `categoryName` matches `term`, ignoring case. */
  predicate Matches(categoryName: string, item: Rule, term: string) {
    var needle := Text.ToLower(term);
    || Text.Contains(Text.ToLower(item.title), needle)
    || Text.Contains(Text.ToLower(item.content), needle)
    || Text.Contains(Text.ToLower(categoryName), needle)
  }

  /** Matching ignores the case of the term: the term is lower-cased first. */
  lemma MatchesIgnoresCase(categoryName: string, item: Rule, term: string)
    ensures Matches(categoryName, item, Text.ToLower(term)) == Matches(categoryName, item, term)
  {
    Text.ToLowerIdempotent(term);
  }

  /** The empty term occurs in every text, so it matches every rule. */
  lemma EmptyTermMatchesAll(categoryName: string, item: Rule)
    ensures Matches(categoryName, item, [])
  {
    assert Text.OccursAt(Text.ToLower(item.title), [], 0);
  }

  /** One category with only its matching rules left. */
  function Narrow(c: Category, term: string): (r: Category)
    ensures r.name == c.name
    ensures IsSubsequence(r.items, c.items)
    ensures forall it :: it in r.items <==> it in c.items && Matches(c.name, it, term)
    ensures forall it :: multiset(r.items)[it] == if Matches(c.name, it, term) then multiset(c.items)[it] else 0
  {
    c.(items := Filter(c.items, it => Matches(c.name, it, term)))
  }

  predicate NonEmpty(c: Category) {
    |c.items| > 0
  }

  /** Every category narrowed to its matching rules, empty ones included. */
  function NarrowAll(rules: seq<Category>, term: string): (r: seq<Category>)
    ensures |r| == |rules|
    ensures forall i :: 0 <= i < |rules| ==> r[i] == Narrow(rules[i], term)
  {
    MapSeq(rules, c => Narrow(c, term))
  }

  /** The `filteredRules` memo. */
  function FilterRules(rules: seq<Category>, term: string): (r: seq<Category>)
    ensures term == [] ==> r == rules
    ensures term != [] ==> forall c :: c in r ==> |c.items| > 0
    ensures term != [] ==> forall c, it :: c in r && it in c.items ==> Matches(c.name, it, term)
    ensures term != [] ==> IsSubsequence(r, NarrowAll(rules, term))
    ensures term != [] ==>
      forall c :: multiset(r)[c] == if |c.items| > 0 then multiset(NarrowAll(rules, term))[c] else 0
    ensures term != [] ==> forall i, it :: 0 <= i < |rules| && it in rules[i].items && Matches(rules[i].name, it, term) ==>
      Narrow(rules[i], term) in r && it in Narrow(rules[i], term).items
  {
    if term == [] then rules
    else
      var narrowed := NarrowAll(rules, term);
      var r := Filter(narrowed, NonEmpty);
      assert forall i :: 0 <= i < |rules| ==> narrowed[i] in narrowed;
      r
  }

  /** A category whose own name contains the term is kept whole. */
  lemma CategoryNameMatchKeepsAll(rules: seq<Category>, term: string, i: nat)
    requires term != [] && i < |rules| && |rules[i].items| > 0
    requires Text.Contains(Text.ToLower(rules[i].name), Text.ToLower(term))
    ensures rules[i] in FilterRules(rules, term)
  {
    var c := rules[i];
    FilterKeepsAll(c.items, it => Matches(c.name, it, term));
    assert Narrow(c, term) == c;
    assert c.items[0] in c.items;
  }
}

=== FILE: sorting.dfy ===
/** Stable sorting of a sequence by an integer key, the behaviour of
    `[...xs].sort((a, b) => key(a) - key(b))`: the ECMAScript specification
    requires `Array.prototype.sort` to be stable, so the result is the unique
    stable ordering, which insertion sort computes. */
module Sorting {

  predicate SortedBy<T>(s: seq<T>, key: T -> int) {
    forall i, j :: 0 <= i < j < |s| ==> key(s[i]) <= key(s[j])
  }

  predicate StrictlySortedBy<T>(s: seq<T>, key: T -> int) {
    forall i, j :: 0 <= i < j < |s| ==> key(s[i]) < key(s[j])
  }

  /** No two positions of `s` share a key. */
  predicate DistinctKeys<T>(s: seq<T>, key: T -> int) {
    forall i, j :: 0 <= i < j < |s| ==> key(s[i]) != key(s[j])
  }

  /** The elements of `s` whose key is `k`, in their order in `s`. */
  function WithKey<T>(s: seq<T>, key: T -> int, k: int): seq<T>
    decreases |s|
  {
    if s == [] then []
    else if key(s[0]) == k then [s[0]] + WithKey(s[1..], key, k)
    else WithKey(s[1..], key, k)
  }

  /** Places `x` before the first element whose key is not smaller than its own. */
  function Insert<T>(x: T, s: seq<T>, key: T -> int): (r: seq<T>)
    ensures |r| == |s| + 1
    ensures multiset(r) == multiset(s) + multiset{x}
    ensures SortedBy(s, key) ==> SortedBy(r, key)
    decreases |s|
  {
    if s == [] || key(x) <= key(s[0]) then
      ConsSorted(x, s, key);
      [x] + s
    else
      var rest := Insert(x, s[1..], key);
      assert s == [s[0]] + s[1..];
      InsertBounded(x, s, rest, key);
      ConsSorted(s[0], rest, key);
      [s[0]] + rest
  }

  /** Helper for `Insert`: the head of a sorted `s` lies below every element
      of the recursive result. */
  lemma InsertBounded<T>(x: T, s: seq<T>, rest: seq<T>, key: T -> int)
    requires s != [] && key(s[0]) < key(x)
    requires multiset(rest) == multiset(s[1..]) + multiset{x}
    ensures SortedBy(s, key) ==> forall j :: 0 <= j < |rest| ==> key(s[0]) <= key(rest[j])
  {
    if SortedBy(s, key) {
      forall j | 0 <= j < |rest| ensures key(s[0]) <= key(rest[j]) {
        assert rest[j] in multiset(rest);
        if rest[j] != x {
          assert rest[j] in multiset(s[1..]);
          var m :| 0 <= m < |s[1..]| && s[1..][m] == rest[j];
          assert s[m + 1] == rest[j];
        }
      }
    }
  }

  /** A sorted tail behind a head no larger than its first element is sorted. */
  lemma ConsSorted<T>(h: T, rest: seq<T>, key: T -> int)
    ensures SortedBy(rest, key) && (rest == [] || key(h) <= key(rest[0])) ==> SortedBy([h] + rest, key)
  {
    if SortedBy(rest, key) && (rest == [] || key(h) <= key(rest[0])) {
      var r := [h] + rest;
      forall i, j | 0 <= i < j < |r| ensures key(r[i]) <= key(r[j]) {
        assert r[j] == rest[j - 1];
        if i > 0 {
          assert r[i] == rest[i - 1];
        }
      }
    }
  }

  function SortBy<T>(s: seq<T>, key: T -> int): (r: seq<T>)
    ensures |r| == |s|
    ensures multiset(r) == multiset(s)
    ensures SortedBy(r, key)
    decreases |s|
  {
    if s == [] then []
    else
      assert s == [s[0]] + s[1..];
      Insert(s[0], SortBy(s[1..], key), key)
  }

  lemma {:induction false} InsertWithKey<T>(x: T, s: seq<T>, key: T -> int, k: int)
    ensures WithKey(Insert(x, s, key), key, k)
         == (if key(x) == k then [x] else []) + WithKey(s, key, k)
    decreases |s|
  {
    if s == [] || key(x) <= key(s[0]) {
      assert ([x] + s)[1..] == s;
    } else {
      InsertWithKey(x, s[1..], key, k);
      assert ([s[0]] + Insert(x, s[1..], key))[1..] == Insert(x, s[1..], key);
    }
  }

  /** Stability: elements with equal keys keep their relative order. */
  lemma {:induction false} SortByStable<T>(s: seq<T>, key: T -> int, k: int)
    ensures WithKey(SortBy(s, key), key, k) == WithKey(s, key, k)
    decreases |s|
  {
    if s != [] {
      SortByStable(s[1..], key, k);
      InsertWithKey(s[0], SortBy(s[1..], key), key, k);
    }
  }

  lemma {:induction false} InsertStrict<T>(x: T, s: seq<T>, key: T -> int)
    requires StrictlySortedBy(s, key)
    requires forall j :: 0 <= j < |s| ==> key(s[j]) != key(x)
    ensures StrictlySortedBy(Insert(x, s, key), key)
    decreases |s|
  {
    if s != [] && key(s[0]) < key(x) {
      var rest := Insert(x, s[1..], key);
      InsertStrict(x, s[1..], key);
      InsertAbove(x, s, rest, key);
      ConsStrict(s[0], rest, key);
    }
  }

  /** Helper for `InsertStrict`: the head of a strictly sorted `s` lies
      strictly below every element of the recursive result. */
  lemma InsertAbove<T>(x: T, s: seq<T>, rest: seq<T>, key: T -> int)
    requires s != [] && key(s[0]) < key(x) && StrictlySortedBy(s, key)
    requires multiset(rest) == multiset(s[1..]) + multiset{x}
    ensures forall j :: 0 <= j < |rest| ==> key(s[0]) < key(rest[j])
  {
    forall j | 0 <= j < |rest| ensures key(s[0]) < key(rest[j]) {
      assert rest[j] in multiset(rest);
      if rest[j] != x {
        assert rest[j] in multiset(s[1..]);
        var m :| 0 <= m < |s[1..]| && s[1..][m] == rest[j];
        assert s[m + 1] == rest[j];
      }
    }
  }

  lemma ConsStrict<T>(h: T, rest: seq<T>, key: T -> int)
    requires StrictlySortedBy(rest, key)
    requires forall j :: 0 <= j < |rest| ==> key(h) < key(rest[j])
    ensures StrictlySortedBy([h] + rest, key)
  {
    var r := [h] + rest;
    forall i, j | 0 <= i < j < |r| ensures key(r[i]) < key(r[j]) {
      assert r[j] == rest[j - 1];
      if i > 0 {
        assert r[i] == rest[i - 1];
      }
    }
  }

  /** When no two elements share a key, the sorted result is strictly increasing. */
  lemma {:induction false} SortByDistinct<T>(s: seq<T>, key: T -> int)
    requires DistinctKeys(s, key)
    ensures StrictlySortedBy(SortBy(s, key), key)
    decreases |s|
  {
    if s != [] {
      var rest := SortBy(s[1..], key);
      SortByDistinct(s[1..], key);
      forall j | 0 <= j < |rest| ensures key(rest[j]) != key(s[0]) {
        assert rest[j] in multiset(s[1..]);
        var m :| 0 <= m < |s[1..]| && s[1..][m] == rest[j];
        assert s[m + 1] == rest[j];
      }
      InsertStrict(s[0], rest, key);
    }
  }

  /** In a strictly increasing sequence the keys at `i <= j` differ by at least `j - i`. */
  lemma {:induction false} StrictGap<T>(s: seq<T>, key: T -> int, i: nat, j: nat)
    requires StrictlySortedBy(s, key)
    requires i <= j < |s|
    ensures key(s[j]) - key(s[i]) >= j - i
    decreases j - i
  {
    if i < j {
      StrictGap(s, key, i, j - 1);
    }
  }

  /** A strictly increasing sequence of `|s|` keys drawn from `lo .. lo + |s| - 1`
      is exactly `lo, lo + 1, ...`. */
  lemma StrictInRangeIsConsecutive<T>(s: seq<T>, key: T -> int, lo: int)
    requires StrictlySortedBy(s, key)
    requires forall i :: 0 <= i < |s| ==> lo <= key(s[i]) < lo + |s|
    ensures forall i :: 0 <= i < |s| ==> key(s[i]) == lo + i
  {
    forall i | 0 <= i < |s| ensures key(s[i]) == lo + i {
      StrictGap(s, key, 0, i);
      StrictGap(s, key, i, |s| - 1);
    }
  }
}

=== FILE: team_rankings.dfy ===
/** The team power-ranking list of the rankings page: twelve teams, each
    holding a rank that is meant to stay a dense permutation of 1..N, reordered
    either by typing a new rank for one team or by dragging a row of the
    rank-sorted list to a new position. Store writes are reduced to one
    boolean: the page commits the new list locally only when every write
    succeeded, and otherwise keeps the list it had. */
module TeamRankings {
  import opened Wrappers
  import opened Sorting
  import Text
  import opened Collections

  /** The writeup a team carries until someone writes one. */
  const Placeholder: string := "Click edit to add power ranking analysis for this team..."

  /** The hard-coded upper bound of the typed-rank input. */
  const TypedRankBound: int := 12

  const DefaultTeamNames: seq<string> := [
    "The Silverbacks", "Team Gone Jawnson", "Pink Sock", "The Pancake Football Team",
    "Zweeg", "Maui Mooseknuckles", "NJ Old School", "Central Saudi Scammers",
    "Jersey Shore Supplements", "Calamari Ballsrings", "Sonalika Scorchers", "Maine Course"
  ]

  datatype Team = Team(id: string, name: string, rank: int, writeup: string)

  function RankKey(t: Team): int {
    t.rank
  }

  // ---------------------------------------------------------------------------
  // Invariants of a ranking
  // ---------------------------------------------------------------------------

  /** The ranks are a permutation of 1..N: each lies in 1..N and no two teams
      share one. */
  predicate Dense(ts: seq<Team>) {
    && (forall i :: 0 <= i < |ts| ==> 1 <= ts[i].rank <= |ts|)
    && (forall i, j :: 0 <= i < j < |ts| ==> ts[i].rank != ts[j].rank)
  }

  /** Team ids are primary keys of the rankings table. */
  predicate UniqueIds(ts: seq<Team>) {
    forall i, j :: 0 <= i < j < |ts| ==> ts[i].id != ts[j].id
  }

  /** `findIndex(t => t.id === id)`, with -1 as None; `find` returns the team
      at that index. */
  function IndexOfId(ts: seq<Team>, id: string): (r: Option<nat>)
    ensures r.Some? ==> r.value < |ts| && ts[r.value].id == id
    ensures r.Some? ==> forall j :: 0 <= j < r.value ==> ts[j].id != id
    ensures r.None? ==> forall j :: 0 <= j < |ts| ==> ts[j].id != id
    decreases |ts|
  {
    if ts == [] then None
    else if ts[0].id == id then Some(0)
    else
      match IndexOfId(ts[1..], id)
      case None => None
      case Some(k) => Some(k + 1)
  }

  predicate HasTeam(ts: seq<Team>, id: string) {
    IndexOfId(ts, id).Some?
  }

  /** The rank-sorted view the page renders (`sortedTeams`). */
  function SortByRank(ts: seq<Team>): (r: seq<Team>)
    ensures |r| == |ts| && multiset(r) == multiset(ts)
    ensures forall i, j :: 0 <= i < j < |r| ==> r[i].rank <= r[j].rank
  {
    SortBy(ts, RankKey)
  }

  /** On a dense ranking the rank-sorted view holds rank i + 1 at position i. */
  lemma SortedDenseIsConsecutive(ts: seq<Team>)
    requires Dense(ts)
    ensures forall i :: 0 <= i < |ts| ==> SortByRank(ts)[i].rank == i + 1
  {
    var s := SortByRank(ts);
    SortByDistinct(ts, RankKey);
    forall i | 0 <= i < |s| ensures 1 <= RankKey(s[i]) < 1 + |s| {
      assert s[i] in multiset(ts);
    }
    StrictInRangeIsConsecutive(s, RankKey, 1);
  }

  /** A team present in the list is present in its rank-sorted view. */
  lemma HasTeamSorted(ts: seq<Team>, id: string)
    requires HasTeam(ts, id)
    ensures HasTeam(SortByRank(ts), id)
  {
    var t := ts[IndexOfId(ts, id).value];
    assert t in multiset(SortByRank(ts));
  }

  // ---------------------------------------------------------------------------
  // Typed rank
  // ---------------------------------------------------------------------------

  /** One team's record after the team `teamId` moves from `oldRank` to
      `newRank`: the mover takes `newRank`; moving down, teams in
      (oldRank, newRank] close the gap by moving up one; moving up, teams in
      [newRank, oldRank) make room by moving down one. */
  function Reranked(t: Team, teamId: string, oldRank: int, newRank: int): Team {
    if oldRank < newRank then
      if t.id == teamId then t.(rank := newRank)
      else if t.rank > oldRank && t.rank <= newRank then t.(rank := t.rank - 1)
      else t
    else
      if t.id == teamId then t.(rank := newRank)
      else if t.rank >= newRank && t.rank < oldRank then t.(rank := t.rank + 1)
      else t
  }

  /** The rank computation of `updateTeamRankInDatabase`. */
  function MoveToRank(ts: seq<Team>, teamId: string, newRank: int): (r: seq<Team>)
    ensures |r| == |ts|
    ensures forall i :: 0 <= i < |ts| ==>
      r[i].id == ts[i].id && r[i].name == ts[i].name && r[i].writeup == ts[i].writeup
    ensures !HasTeam(ts, teamId) ==> r == ts
    ensures HasTeam(ts, teamId) ==>
      var oldRank := ts[IndexOfId(ts, teamId).value].rank;
      && (oldRank == newRank ==> r == ts)
      && (oldRank != newRank ==> forall i :: 0 <= i < |ts| && ts[i].id == teamId ==> r[i].rank == newRank)
      && (oldRank < newRank ==> forall i :: 0 <= i < |ts| && ts[i].id != teamId ==>
            r[i].rank == (if oldRank < ts[i].rank <= newRank then ts[i].rank - 1 else ts[i].rank))
      && (newRank < oldRank ==> forall i :: 0 <= i < |ts| && ts[i].id != teamId ==>
            r[i].rank == (if newRank <= ts[i].rank < oldRank then ts[i].rank + 1 else ts[i].rank))
  {
    match IndexOfId(ts, teamId)
    case None => ts
    case Some(k) =>
      var oldRank := ts[k].rank;
      if oldRank == newRank then ts
      else seq(|ts|, i requires 0 <= i < |ts| => Reranked(ts[i], teamId, oldRank, newRank))
  }

  /** A typed move to a rank within 1..N keeps the ranking a permutation of 1..N. */
  lemma MoveToRankKeepsDense(ts: seq<Team>, teamId: string, newRank: int)
    requires Dense(ts) && UniqueIds(ts)
    requires 1 <= newRank <= |ts|
    ensures Dense(MoveToRank(ts, teamId, newRank))
    ensures UniqueIds(MoveToRank(ts, teamId, newRank))
  {
    var r := MoveToRank(ts, teamId, newRank);
    if HasTeam(ts, teamId) {
      var k := IndexOfId(ts, teamId).value;
      var oldRank := ts[k].rank;
      if oldRank != newRank {
        assert forall i :: 0 <= i < |ts| && i != k ==> ts[i].id != teamId && ts[i].rank != oldRank;
        forall i | 0 <= i < |ts| ensures 1 <= r[i].rank <= |ts| {
          MoveToRankEntry(ts, teamId, newRank, i);
        }
        forall i, j | 0 <= i < j < |ts| ensures r[i].rank != r[j].rank {
          MoveToRankEntry(ts, teamId, newRank, i);
          MoveToRankEntry(ts, teamId, newRank, j);
          RerankedDistinct(ts[i], ts[j], teamId, oldRank, newRank);
        }
      }
    }
  }

  /** Two records with different ranks, at most one of them the mover, still
      have different ranks after the move. */
  lemma RerankedDistinct(a: Team, b: Team, teamId: string, oldRank: int, newRank: int)
    requires a.rank != b.rank
    requires a.id == teamId <==> a.rank == oldRank
    requires b.id == teamId <==> b.rank == oldRank
    ensures Reranked(a, teamId, oldRank, newRank).rank != Reranked(b, teamId, oldRank, newRank).rank
  {
  }

  /** Typing the old rank back after a typed move restores the whole ranking. */
  lemma MoveToRankRoundTrip(ts: seq<Team>, teamId: string, newRank: int)
    requires Dense(ts) && UniqueIds(ts) && HasTeam(ts, teamId)
    requires 1 <= newRank <= |ts|
    ensures MoveToRank(MoveToRank(ts, teamId, newRank), teamId, ts[IndexOfId(ts, teamId).value].rank) == ts
  {
    var k := IndexOfId(ts, teamId).value;
    var oldRank := ts[k].rank;
    var mid := MoveToRank(ts, teamId, newRank);
    if oldRank != newRank {
      assert forall i :: 0 <= i < |ts| && i != k ==> ts[i].id != teamId && ts[i].rank != oldRank;
      IndexOfIdSameIds(ts, mid, teamId);
      var back := MoveToRank(mid, teamId, oldRank);
      forall i | 0 <= i < |ts| ensures back[i] == ts[i] {
        MoveToRankEntry(ts, teamId, newRank, i);
        MoveToRankEntry(mid, teamId, oldRank, i);
        RerankedRoundTrip(ts[i], teamId, oldRank, newRank);
      }
    }
  }

  /** One record moved from `oldRank` to `newRank` and back is unchanged, given
      that only the mover held `oldRank`. */
  lemma RerankedRoundTrip(t: Team, teamId: string, oldRank: int, newRank: int)
    requires t.id == teamId <==> t.rank == oldRank
    ensures Reranked(Reranked(t, teamId, oldRank, newRank), teamId, newRank, oldRank) == t
  {
  }

  /** `IndexOfId` looks at ids only. */
  lemma {:induction false} IndexOfIdSameIds(a: seq<Team>, b: seq<Team>, id: string)
    requires |a| == |b| && forall i :: 0 <= i < |a| ==> a[i].id == b[i].id
    ensures IndexOfId(a, id) == IndexOfId(b, id)
    decreases |a|
  {
    if a != [] && a[0].id != id {
      IndexOfIdSameIds(a[1..], b[1..], id);
    }
  }

  /** `saveRankEdit`: a parsed typed rank (None when `parseInt` gives NaN)
      moves the team only when it lies in 1..`bound`, and the move is kept only
      when the store accepted every write. */
  function SaveRankEdit(ts: seq<Team>, teamId: string, typed: Option<int>, bound: int,
                        writesSucceed: bool): (r: seq<Team>)
    ensures (typed.None? || typed.value < 1 || typed.value > bound) ==> r == ts
    ensures !writesSucceed ==> r == ts
    ensures typed.Some? && 1 <= typed.value <= bound && writesSucceed ==>
      r == MoveToRank(ts, teamId, typed.value)
    ensures Dense(ts) && UniqueIds(ts) && bound == |ts| ==> Dense(r) && UniqueIds(r)
  {
    match typed
    case Some(newRank) =>
      if newRank >= 1 && newRank <= bound && writesSucceed then
        if Dense(ts) && UniqueIds(ts) && bound == |ts| then
          MoveToRankKeepsDense(ts, teamId, newRank);
          MoveToRank(ts, teamId, newRank)
        else MoveToRank(ts, teamId, newRank)
      else ts
    case None => ts
  }

  // ---------------------------------------------------------------------------
  // Drag and drop
  // ---------------------------------------------------------------------------

  /** `updateAllTeamRanks`: every team takes its 1-based list position as rank. */
  function Renumber(ts: seq<Team>): (r: seq<Team>)
    ensures |r| == |ts|
    ensures forall i :: 0 <= i < |ts| ==>
      r[i].rank == i + 1 && r[i].id == ts[i].id && r[i].name == ts[i].name && r[i].writeup == ts[i].writeup
    ensures Dense(r)
  {
    seq(|ts|, i requires 0 <= i < |ts| => ts[i].(rank := i + 1))
  }

  /** `handleDrop` followed by `updateAllTeamRanks`: the dragged team is cut
      out of the rank-sorted list and reinserted at `dropIndex`, and the list is
      renumbered. Dropping a team where it already is does nothing. */
  function HandleDrop(ts: seq<Team>, draggedId: string, dropIndex: nat, writesSucceed: bool): (r: seq<Team>)
    requires HasTeam(ts, draggedId) && dropIndex < |ts|
    ensures |r| == |ts|
    ensures HasTeam(SortByRank(ts), draggedId)
    ensures IndexOfId(SortByRank(ts), draggedId).value == dropIndex || !writesSucceed ==> r == ts
  {
    var sorted := SortByRank(ts);
    HasTeamSorted(ts, draggedId);
    var dragIndex := IndexOfId(sorted, draggedId).value;
    if dragIndex == dropIndex || !writesSucceed then ts
    else Renumber(Reinsert(sorted, dragIndex, dropIndex))
  }

  /** A real drop leaves the dragged team at `dropIndex`, ranks every team by
      its list position 1..N whatever the ranks were before, and keeps the same
      teams with the same ids, names and writeups. */
  lemma DropRenumbers(ts: seq<Team>, draggedId: string, dropIndex: nat)
    requires HasTeam(ts, draggedId) && dropIndex < |ts|
    requires IndexOfId(SortByRank(ts), draggedId) != Some(dropIndex)
    ensures var r := HandleDrop(ts, draggedId, dropIndex, true);
      && Dense(r)
      && r[dropIndex].id == draggedId
      && (forall i :: 0 <= i < |r| ==> r[i].rank == i + 1)
      && multiset(Unranked(r)) == multiset(Unranked(ts))
  {
    var sorted := SortByRank(ts);
    HasTeamSorted(ts, draggedId);
    var dragIndex := IndexOfId(sorted, draggedId).value;
    var moved := Reinsert(sorted, dragIndex, dropIndex);
    assert HandleDrop(ts, draggedId, dropIndex, true) == Renumber(moved);
    assert multiset(moved) == multiset(ts);
    UnrankedRenumber(moved);
    MapSeqPermutation(moved, ts, Unrank);
  }

  /** A team record with its rank blanked out. */
  function Unrank(t: Team): Team {
    t.(rank := 0)
  }

  function Unranked(ts: seq<Team>): (r: seq<Team>)
    ensures |r| == |ts|
    ensures forall i :: 0 <= i < |ts| ==> r[i] == Unrank(ts[i])
  {
    MapSeq(ts, Unrank)
  }

  lemma UnrankedRenumber(ts: seq<Team>)
    ensures Unranked(Renumber(ts)) == Unranked(ts)
  {
  }

  // ---------------------------------------------------------------------------
  // The two entry points agree
  // ---------------------------------------------------------------------------

  /** The rank a team at position `j` of the sorted view takes after the team
      at `d` is typed to rank `p + 1` is `i + 1`, where `j` is the source of
      position `i` of the drop. */
  lemma ShiftMatchesSplice(d: nat, p: nat, i: nat, n: nat)
    requires d < n && p < n && i < n && d != p
    ensures var j := SourceIndex(d, p, i);
      j < n &&
      (j == d <==> i == p) &&
      (j != d && d < p ==> (if d + 1 < j + 1 <= p + 1 then j else j + 1) == i + 1) &&
      (j != d && p < d ==> (if p + 1 <= j + 1 < d + 1 then j + 2 else j + 1) == i + 1)
  {
  }

  /** On a ranking with unique ids, the dragged team found in the sorted view
      is the very team `find` returns from the unsorted list. */
  lemma DraggedIsFound(ts: seq<Team>, teamId: string)
    requires UniqueIds(ts) && HasTeam(ts, teamId)
    ensures HasTeam(SortByRank(ts), teamId)
    ensures SortByRank(ts)[IndexOfId(SortByRank(ts), teamId).value] == ts[IndexOfId(ts, teamId).value]
  {
    HasTeamSorted(ts, teamId);
    var sorted := SortByRank(ts);
    var d := IndexOfId(sorted, teamId).value;
    assert sorted[d] in multiset(ts);
    var m :| 0 <= m < |ts| && ts[m] == sorted[d];
  }

  /** The entries of a real drop: position `i` holds the team from sorted
      position `SourceIndex(dragIndex, p, i)`, ranked `i + 1`. */
  lemma DropEntries(ts: seq<Team>, teamId: string, p: nat)
    requires HasTeam(ts, teamId) && p < |ts|
    ensures HasTeam(SortByRank(ts), teamId)
    ensures var sorted := SortByRank(ts);
      var d := IndexOfId(sorted, teamId).value;
      d != p ==> forall i :: 0 <= i < |ts| ==>
        SourceIndex(d, p, i) < |ts| &&
        HandleDrop(ts, teamId, p, true)[i] == sorted[SourceIndex(d, p, i)].(rank := i + 1)
  {
    HasTeamSorted(ts, teamId);
    var sorted := SortByRank(ts);
    var d := IndexOfId(sorted, teamId).value;
    if d != p {
      ReinsertSource(sorted, d, p);
    }
  }

  /** A dense ranking with unique ids, and a drop that moves the team `teamId`
      to a position `p` other than its own. */
  predicate RealDrop(ts: seq<Team>, teamId: string, p: nat) {
    && Dense(ts) && UniqueIds(ts) && HasTeam(ts, teamId) && p < |ts|
    && HasTeam(SortByRank(ts), teamId)
    && IndexOfId(SortByRank(ts), teamId).value != p
  }

  /** Entry `m` of a real typed move is the team `m` re-ranked. */
  lemma MoveToRankEntry(ts: seq<Team>, teamId: string, newRank: int, m: nat)
    requires HasTeam(ts, teamId) && m < |ts|
    requires ts[IndexOfId(ts, teamId).value].rank != newRank
    ensures MoveToRank(ts, teamId, newRank)[m]
         == Reranked(ts[m], teamId, ts[IndexOfId(ts, teamId).value].rank, newRank)
  {
  }

  /** The team at sorted position `j`, re-ranked by typing rank `p + 1` for the
      team at sorted position `d`, takes rank `i + 1` where `j` is the drop
      source of position `i`. */
  lemma RerankedAsDropped(t: Team, teamId: string, d: nat, p: nat, i: nat, n: nat)
    requires d < n && p < n && i < n && d != p
    requires t.rank == SourceIndex(d, p, i) + 1
    requires t.id == teamId <==> SourceIndex(d, p, i) == d
    ensures Reranked(t, teamId, d + 1, p + 1) == t.(rank := i + 1)
  {
    ShiftMatchesSplice(d, p, i, n);
  }

  /** The team that a drop puts at position `i` appears, with rank `i + 1`,
      in the result of typing rank `p + 1`. */
  lemma DropEntryIsTyped(ts: seq<Team>, teamId: string, p: nat, i: nat)
    requires RealDrop(ts, teamId, p) && i < |ts|
    ensures var sorted := SortByRank(ts);
      var j := SourceIndex(IndexOfId(sorted, teamId).value, p, i);
      j < |ts| && sorted[j].(rank := i + 1) in MoveToRank(ts, teamId, p + 1)
  {
    var n := |ts|;
    var sorted := SortByRank(ts);
    var d := IndexOfId(sorted, teamId).value;
    var j := SourceIndex(d, p, i);
    ShiftMatchesSplice(d, p, i, n);
    DraggedIsFound(ts, teamId);
    var md := SortedEntryOrigin(ts, teamId, d);
    var m := SortedEntryOrigin(ts, teamId, j);
    MoveToRankEntry(ts, teamId, p + 1, m);
    RerankedAsDropped(ts[m], teamId, d, p, i, n);
  }

  /** On a dense ranking with unique ids, sorted position `j` holds some team
      `ts[m]` of rank `j + 1`, and that team is `teamId` exactly when `j` is
      where the sorted view finds `teamId`. */
  lemma SortedEntryOrigin(ts: seq<Team>, teamId: string, j: nat) returns (m: nat)
    requires Dense(ts) && UniqueIds(ts) && HasTeam(ts, teamId) && j < |ts|
    ensures HasTeam(SortByRank(ts), teamId)
    ensures m < |ts| && ts[m] == SortByRank(ts)[j] && ts[m].rank == j + 1
    ensures ts[m].id == teamId <==> j == IndexOfId(SortByRank(ts), teamId).value
  {
    var sorted := SortByRank(ts);
    SortedDenseIsConsecutive(ts);
    DraggedIsFound(ts, teamId);
    var d := IndexOfId(sorted, teamId).value;
    var k := IndexOfId(ts, teamId).value;
    assert sorted[j] in multiset(ts);
    m :| 0 <= m < |ts| && ts[m] == sorted[j];
    if ts[m].id == teamId {
      assert m == k;
    }
  }

  /** Position `i` of a real drop holds the team the typed move ranks `i + 1`. */
  lemma DropEntryIsSortedTyped(ts: seq<Team>, teamId: string, p: nat, i: nat)
    requires RealDrop(ts, teamId, p) && i < |ts|
    ensures HandleDrop(ts, teamId, p, true)[i] == SortByRank(MoveToRank(ts, teamId, p + 1))[i]
  {
    var n := |ts|;
    var typed := MoveToRank(ts, teamId, p + 1);
    MoveToRankKeepsDense(ts, teamId, p + 1);
    SortedDenseIsConsecutive(typed);
    var expected := SortByRank(typed);
    var dropped := HandleDrop(ts, teamId, p, true);
    DropEntries(ts, teamId, p);
    DropEntryIsTyped(ts, teamId, p, i);
    var m :| 0 <= m < n && typed[m] == dropped[i];
    assert expected[i] in multiset(typed);
    var m' :| 0 <= m' < n && typed[m'] == expected[i];
    assert typed[m].rank == typed[m'].rank;
  }

  /** A real drop's result is the rank-sorted view of the typed result. */
  lemma DropIsSortedTyped(ts: seq<Team>, teamId: string, p: nat)
    requires RealDrop(ts, teamId, p)
    ensures HandleDrop(ts, teamId, p, true) == SortByRank(MoveToRank(ts, teamId, p + 1))
  {
    DropEntriesAreSortedTyped(ts, teamId, p);
    SameEntries(HandleDrop(ts, teamId, p, true), SortByRank(MoveToRank(ts, teamId, p + 1)));
  }

  lemma DropEntriesAreSortedTyped(ts: seq<Team>, teamId: string, p: nat)
    requires RealDrop(ts, teamId, p)
    ensures |HandleDrop(ts, teamId, p, true)| == |SortByRank(MoveToRank(ts, teamId, p + 1))|
    ensures forall i :: 0 <= i < |ts| ==>
      HandleDrop(ts, teamId, p, true)[i] == SortByRank(MoveToRank(ts, teamId, p + 1))[i]
  {
    forall i | 0 <= i < |ts|
      ensures HandleDrop(ts, teamId, p, true)[i] == SortByRank(MoveToRank(ts, teamId, p + 1))[i]
    {
      DropEntryIsSortedTyped(ts, teamId, p, i);
    }
  }

  /** Dropping a team at its own position and typing its own rank both leave
      the ranking unchanged. */
  lemma DropInPlace(ts: seq<Team>, teamId: string, p: nat)
    requires Dense(ts) && UniqueIds(ts) && HasTeam(ts, teamId)
    requires p < |ts|
    requires HasTeam(SortByRank(ts), teamId)
    requires IndexOfId(SortByRank(ts), teamId).value == p
    ensures HandleDrop(ts, teamId, p, true) == ts == MoveToRank(ts, teamId, p + 1)
  {
    SortedDenseIsConsecutive(ts);
    DraggedIsFound(ts, teamId);
  }

  /** Dropping a team at 0-based position `p` of the rank-sorted list yields
      the same team records, ranks included, as typing rank `p + 1` for it. */
  lemma DropMatchesTypedRank(ts: seq<Team>, teamId: string, p: nat)
    requires Dense(ts) && UniqueIds(ts) && HasTeam(ts, teamId)
    requires p < |ts|
    ensures multiset(HandleDrop(ts, teamId, p, true)) == multiset(MoveToRank(ts, teamId, p + 1))
  {
    HasTeamSorted(ts, teamId);
    if IndexOfId(SortByRank(ts), teamId).value == p {
      DropInPlace(ts, teamId, p);
    } else {
      DropIsSortedTyped(ts, teamId, p);
    }
  }

  // ---------------------------------------------------------------------------
  // Writeups
  // ---------------------------------------------------------------------------

  /** The text `saveEdit` stores: a blank edit becomes the placeholder. */
  function WriteupToStore(editText: string): (r: string)
    ensures Text.IsBlank(editText) ==> r == Placeholder
    ensures !Text.IsBlank(editText) ==> r == editText
  {
    Text.TrimEmptyIffBlank(editText);
    if Text.Trim(editText) == [] then Placeholder else editText
  }

  /** `startEditing`: the placeholder opens as an empty edit buffer. */
  function StartEditing(currentText: string): (r: string)
    ensures currentText == Placeholder ==> r == []
    ensures currentText != Placeholder ==> r == currentText
  {
    if currentText == Placeholder then [] else currentText
  }

  /** Opening a stored writeup for editing and saving it untouched gives the
      same writeup back. */
  lemma EditUntouchedKeepsWriteup(w: string)
    requires w == Placeholder || !Text.IsBlank(w)
    ensures WriteupToStore(StartEditing(w)) == w
  {
    if w == Placeholder {
      assert Text.IsBlank([]);
    }
  }

  function WithWriteup(t: Team, teamId: string, text: string): (r: Team)
    ensures r.id == t.id && r.name == t.name && r.rank == t.rank
    ensures r.writeup == if t.id == teamId then text else t.writeup
  {
    if t.id == teamId then t.(writeup := text) else t
  }

  /** The local-state update of `updateTeamInDatabase`: the team `teamId`
      takes the writeup `text`. */
  function SetWriteup(ts: seq<Team>, teamId: string, text: string): (r: seq<Team>)
    ensures |r| == |ts|
    ensures forall i :: 0 <= i < |ts| ==> r[i] == WithWriteup(ts[i], teamId, text)
  {
    seq(|ts|, i requires 0 <= i < |ts| => WithWriteup(ts[i], teamId, text))
  }

  /** `saveEdit` through `updateTeamInDatabase`: only the writeup of the team
      `teamId` changes, and only when the store accepted the write. */
  function SaveWriteup(ts: seq<Team>, teamId: string, editText: string, writesSucceed: bool): (r: seq<Team>)
    ensures |r| == |ts|
    ensures forall i :: 0 <= i < |ts| ==>
      r[i].id == ts[i].id && r[i].name == ts[i].name && r[i].rank == ts[i].rank
    ensures forall i :: 0 <= i < |ts| ==>
      r[i].writeup == if writesSucceed && ts[i].id == teamId then WriteupToStore(editText) else ts[i].writeup
  {
    if writesSucceed then SetWriteup(ts, teamId, WriteupToStore(editText)) else ts
  }

  /** Opening a team's writeup and saving it untouched gives the ranking back,
      when ids are unique and the writeup is the placeholder or not blank. */
  lemma SaveUntouchedWriteup(ts: seq<Team>, teamId: string, writesSucceed: bool)
    requires UniqueIds(ts) && HasTeam(ts, teamId)
    requires var w := ts[IndexOfId(ts, teamId).value].writeup; w == Placeholder || !Text.IsBlank(w)
    ensures SaveWriteup(ts, teamId, StartEditing(ts[IndexOfId(ts, teamId).value].writeup), writesSucceed) == ts
  {
    var k := IndexOfId(ts, teamId).value;
    var r := SaveWriteup(ts, teamId, StartEditing(ts[k].writeup), writesSucceed);
    EditUntouchedKeepsWriteup(ts[k].writeup);
    forall i | 0 <= i < |ts| ensures r[i] == ts[i] {
      if ts[i].id == teamId {
        assert i == k;
      }
    }
    SameEntries(r, ts);
  }

  // ---------------------------------------------------------------------------
  // Seeding
  // ---------------------------------------------------------------------------

  /** `initializeDefaultTeams`: the names in declaration order, ranked 1..N,
      each with the placeholder writeup. */
  function SeedTeams(names: seq<string>, ids: seq<string>): (r: seq<Team>)
    requires |ids| == |names|
    ensures |r| == |names| && Dense(r)
    ensures forall i :: 0 <= i < |r| ==>
      r[i].id == ids[i] && r[i].name == names[i] && r[i].rank == i + 1 && r[i].writeup == Placeholder
  {
    seq(|names|, i requires 0 <= i < |names| => Team(ids[i], names[i], i + 1, Placeholder))
  }

  /** The local fallback when the store cannot be seeded: ids "1".."12". */
  function FallbackTeams(): (r: seq<Team>)
    ensures |r| == 12 == TypedRankBound
    ensures forall i :: 0 <= i < |r| ==>
      r[i].id == Text.NatToString(i + 1) && r[i].name == DefaultTeamNames[i] &&
      r[i].rank == i + 1 && r[i].writeup == Placeholder
    ensures Dense(r) && UniqueIds(r)
  {
    var ids := seq(|DefaultTeamNames|, i requires 0 <= i < |DefaultTeamNames| => Text.NatToString(i + 1));
    var r := SeedTeams(DefaultTeamNames, ids);
    assert UniqueIds(r) by {
      forall i, j | 0 <= i < j < |r| ensures r[i].id != r[j].id {
        if r[i].id == r[j].id {
          Text.NatToStringInjective(i + 1, j + 1);
        }
      }
    }
    r
  }
}

=== FILE: text.dfy ===
/** String helpers standing in for the JavaScript built-ins the pages call:
    `Number.prototype.toString` on non-negative integers, `String.prototype.trim`,
    `toLowerCase` and `includes`. Strings are sequences of Unicode scalar values. */
module Text {

  predicate IsDigit(c: char) {
    '0' <= c <= '9'
  }

  function DigitChar(d: nat): (c: char)
    requires d < 10
    ensures IsDigit(c)
  {
    (48 + d) as char
  }

  /** Decimal rendering of a non-negative integer, without leading zeros
      (`n.toString()` in JavaScript). */
  function NatToString(n: nat): (r: string)
    ensures |r| >= 1
    ensures forall i :: 0 <= i < |r| ==> IsDigit(r[i])
    ensures r[0] == '0' ==> n == 0
    decreases n
  {
    if n < 10 then [DigitChar(n)] else NatToString(n / 10) + [DigitChar(n % 10)]
  }

  /** The value of a string of decimal digits, the inverse of `NatToString`. */
  function DigitsValue(s: string): nat
    requires forall i :: 0 <= i < |s| ==> IsDigit(s[i])
    decreases |s|
  {
    if s == [] then 0
    else DigitsValue(s[..|s| - 1]) * 10 + DigitValue(s[|s| - 1])
  }

  function DigitValue(c: char): (d: nat)
    requires IsDigit(c)
    ensures d < 10 && DigitChar(d) == c
  {
    c as int - 48
  }

  lemma {:induction false} NatToStringRoundTrip(n: nat)
    ensures DigitsValue(NatToString(n)) == n
    decreases n
  {
    if n >= 10 {
      NatToStringRoundTrip(n / 10);
      var r := NatToString(n);
      assert r[..|r| - 1] == NatToString(n / 10);
    }
  }

  /** Distinct numbers render as distinct strings. */
  lemma NatToStringInjective(a: nat, b: nat)
    requires NatToString(a) == NatToString(b)
    ensures a == b
  {
    NatToStringRoundTrip(a);
    NatToStringRoundTrip(b);
  }

  /** Two joins `a + [sep] + b` and `c + [sep] + d` of separator-free parts are
      equal only when the parts are. */
  lemma {:induction false} JoinInjective(a: string, b: string, c: string, d: string, sep: char)
    requires sep !in a && sep !in c
    requires a + [sep] + b == c + [sep] + d
    ensures a == c && b == d
  {
    var x := a + [sep] + b;
    assert forall i :: 0 <= i < |a| ==> x[i] != sep;
    assert forall i :: 0 <= i < |c| ==> x[i] != sep;
    assert x[|a|] == sep && x[|c|] == sep;
    assert a == x[..|a|] == c;
    assert b == x[|a| + 1..] == d;
  }

  /** The characters `String.prototype.trim` strips: the ECMAScript WhiteSpace
      and LineTerminator code points. */
  predicate IsWhitespace(c: char) {
    || c == '\t' || c == '\n' || c == '\U{000B}' || c == '\U{000C}' || c == '\r'
    || c == ' ' || c == '\U{00A0}' || c == '\U{1680}'
    || ('\U{2000}' <= c <= '\U{200A}')
    || c == '\U{2028}' || c == '\U{2029}' || c == '\U{202F}' || c == '\U{205F}'
    || c == '\U{3000}' || c == '\U{FEFF}'
  }

  predicate IsBlank(s: string) {
    forall i :: 0 <= i < |s| ==> IsWhitespace(s[i])
  }

  /** How many whitespace characters `s` starts with. */
  function LeadingBlank(s: string): (k: nat)
    ensures k <= |s|
    ensures forall i :: 0 <= i < k ==> IsWhitespace(s[i])
    ensures k == |s| || !IsWhitespace(s[k])
    decreases |s|
  {
    if s != [] && IsWhitespace(s[0]) then 1 + LeadingBlank(s[1..]) else 0
  }

  /** Where the whitespace that `s` ends with begins. */
  function TrailingStart(s: string): (j: nat)
    ensures j <= |s|
    ensures forall i :: j <= i < |s| ==> IsWhitespace(s[i])
    ensures j == 0 || !IsWhitespace(s[j - 1])
    decreases |s|
  {
    if s != [] && IsWhitespace(s[|s| - 1]) then TrailingStart(s[..|s| - 1]) else |s|
  }

  /** `String.prototype.trim`: the block of `s` left after cutting off its
      leading and trailing whitespace. */
  function Trim(s: string): (r: string)
    ensures r == [] || (!IsWhitespace(r[0]) && !IsWhitespace(r[|r| - 1]))
    ensures exists k | 0 <= k <= |s| - |r| :: OccursAt(s, r, k) && IsBlank(s[..k]) && IsBlank(s[k + |r|..])
  {
    var k := LeadingBlank(s);
    var t := s[k..];
    var j := TrailingStart(t);
    TrimBlock(s, k, j);
    t[..j]
  }

  /** Helper for `Trim`: the kept block sits between two blank stretches. */
  lemma TrimBlock(s: string, k: nat, j: nat)
    requires k <= |s| && j <= |s| - k
    requires forall i :: 0 <= i < k ==> IsWhitespace(s[i])
    requires forall i :: j <= i < |s| - k ==> IsWhitespace(s[k..][i])
    ensures OccursAt(s, s[k..][..j], k) && IsBlank(s[..k]) && IsBlank(s[k + j..])
  {
    assert s[k..][..j] == s[k..k + j];
    var tail := s[k + j..];
    forall i | 0 <= i < |tail| ensures IsWhitespace(tail[i]) {
      assert tail[i] == s[k..][j + i];
    }
  }

  /** A string trims to the empty string exactly when all its characters are
      whitespace. */
  lemma TrimEmptyIffBlank(s: string)
    ensures Trim(s) == [] <==> IsBlank(s)
  {
    var k := LeadingBlank(s);
    var t := s[k..];
    if IsBlank(s) {
      assert k == |s|;
    } else {
      var j := TrailingStart(t);
      var i :| 0 <= i < |s| && !IsWhitespace(s[i]);
      assert k <= i;
      assert t[i - k] == s[i];
      assert j > i - k;
    }
  }

  /** ASCII case folding: `A`..`Z` become `a`..`z`; every other character is kept. */
  function LowerChar(c: char): (r: char)
    ensures 'A' <= c <= 'Z' ==> r as int == c as int + 32
    ensures !('A' <= c <= 'Z') ==> r == c
  {
    if 'A' <= c <= 'Z' then (c as int + 32) as char else c
  }

  function ToLower(s: string): (r: string)
    ensures |r| == |s|
    ensures forall i :: 0 <= i < |s| ==> r[i] == LowerChar(s[i])
  {
    seq(|s|, i requires 0 <= i < |s| => LowerChar(s[i]))
  }

  /** Lower-casing twice is lower-casing once. */
  lemma ToLowerIdempotent(s: string)
    ensures ToLower(ToLower(s)) == ToLower(s)
  {
    var once := ToLower(s);
    var twice := ToLower(once);
    forall i | 0 <= i < |s| ensures twice[i] == once[i] {
      assert twice[i] == LowerChar(LowerChar(s[i]));
    }
  }

  /** `hay.includes(needle)`: `needle` occurs as a contiguous block of `hay`. */
  predicate Contains(hay: string, needle: string) {
    exists i | 0 <= i <= |hay| - |needle| :: OccursAt(hay, needle, i)
  }

  predicate OccursAt(hay: string, needle: string, i: int) {
    0 <= i <= |hay| - |needle| && hay[i..i + |needle|] == needle
  }
}

=== FILE: weekly_matchups.dfy ===
/** The weekly matchup page: thirteen weeks of head-to-head matchups, each with
    a commissioner writeup and an optional predicted winner, a set of expanded
    week panels, and the editing buffers of the three inline editors. */
module WeeklyMatchups {
  import opened Wrappers
  import opened Collections
  import opened Text

  /** The writeup every matchup starts with. */
  const Placeholder: string := "Click edit to add commissioner analysis for this matchup..."
  const WeekCount: nat := 13
  const MatchupsPerWeek: nat := 6

  datatype Prediction = Prediction(winner: string, margin: real)

  datatype Matchup = Matchup(id: string, team1: string, team2: string, writeup: string, prediction: Option<Prediction>)

  datatype Week = Week(week: int, matchups: seq<Matchup>)

  /** One row of the hard-coded schedule: who plays whom. */
  datatype Pairing = Pairing(team1: string, team2: string)

  /** Which matchup each editor is open on, and what has been typed into it. */
  datatype Editor = Editor(
    editingMatchup: Option<string>, editText: string,
    editingTeams: Option<string>, editTeam1: string, editTeam2: string,
    editingPrediction: Option<string>, predictionWinner: string, predictionMargin: string)

  /** No editor open and every buffer empty. */
  const Idle: Editor := Editor(None, "", None, "", "", None, "", "")

  datatype Page = Page(weeks: seq<Week>, expanded: set<int>, editor: Editor)

  // ---------------------------------------------------------------------------
  // The initial schedule
  // ---------------------------------------------------------------------------

  /** The id of the k-th matchup of a week, `"<week>-<k>"`. */
  function MatchupId(week: nat, k: nat): string {
    NatToString(week) + "-" + NatToString(k)
  }

  /** Different (week, position) pairs never share an id. */
  lemma MatchupIdInjective(w1: nat, k1: nat, w2: nat, k2: nat)
    requires MatchupId(w1, k1) == MatchupId(w2, k2)
    ensures w1 == w2 && k1 == k2
  {
    var a, b, c, d := NatToString(w1), NatToString(k1), NatToString(w2), NatToString(k2);
    assert '-' !in a by {
      assert forall i :: 0 <= i < |a| ==> IsDigit(a[i]);
    }
    assert '-' !in c by {
      assert forall i :: 0 <= i < |c| ==> IsDigit(c[i]);
    }
    JoinInjective(a, b, c, d, '-');
    NatToStringInjective(w1, w2);
    NatToStringInjective(k1, k2);
  }

  /** Builds week `w + 1` from its row of the schedule table. */
  function ScheduledWeek(w: nat, row: seq<Pairing>): Week {
    Week(w + 1, seq(|row|, k requires 0 <= k < |row| =>
      Matchup(MatchupId(w + 1, k + 1), row[k].team1, row[k].team2, Placeholder, None)))
  }

  /** The initial `weeksData`: week `w + 1` plays the pairings of row `w`. */
  function Schedule(table: seq<seq<Pairing>>): (r: seq<Week>)
    ensures |r| == |table|
    ensures forall w :: 0 <= w < |r| ==> r[w].week == w + 1 && |r[w].matchups| == |table[w]|
    ensures forall w, k :: 0 <= w < |r| && 0 <= k < |table[w]| ==>
      var m := r[w].matchups[k];
      m.id == MatchupId(w + 1, k + 1) && m.team1 == table[w][k].team1 && m.team2 == table[w][k].team2 &&
      m.writeup == Placeholder && m.prediction == None
  {
    seq(|table|, w requires 0 <= w < |table| => ScheduledWeek(w, table[w]))
  }

  /** The schedule table of the season: thirteen weeks of six games. */
  predicate IsSeasonTable(table: seq<seq<Pairing>>) {
    |table| == WeekCount && forall w :: 0 <= w < |table| ==> |table[w]| == MatchupsPerWeek
  }

  /** Every matchup id in the schedule is distinct. */
  predicate UniqueMatchupIds(weeks: seq<Week>) {
    forall w1, k1, w2, k2 ::
      0 <= w1 < |weeks| && 0 <= k1 < |weeks[w1].matchups| &&
      0 <= w2 < |weeks| && 0 <= k2 < |weeks[w2].matchups| &&
      weeks[w1].matchups[k1].id == weeks[w2].matchups[k2].id
      ==> w1 == w2 && k1 == k2
  }

  /** Weeks 1..13 in order, six matchups each, ids `"<week>-<k>"`, all distinct,
      every writeup the placeholder and no prediction yet. */
  lemma SeasonShape(table: seq<seq<Pairing>>)
    requires IsSeasonTable(table)
    ensures var s := Schedule(table);
      |s| == WeekCount &&
      (forall w :: 0 <= w < |s| ==> s[w].week == w + 1 && |s[w].matchups| == MatchupsPerWeek) &&
      (forall w, k :: 0 <= w < |s| && 0 <= k < |s[w].matchups| ==>
         s[w].matchups[k].id == MatchupId(w + 1, k + 1) &&
         s[w].matchups[k].writeup == Placeholder && s[w].matchups[k].prediction == None) &&
      UniqueMatchupIds(s)
  {
    ScheduleIdsUnique(table);
  }

  lemma ScheduleIdsUnique(table: seq<seq<Pairing>>)
    ensures UniqueMatchupIds(Schedule(table))
  {
    var s := Schedule(table);
    forall w1, k1, w2, k2 |
      0 <= w1 < |s| && 0 <= k1 < |s[w1].matchups| &&
      0 <= w2 < |s| && 0 <= k2 < |s[w2].matchups| &&
      s[w1].matchups[k1].id == s[w2].matchups[k2].id
      ensures w1 == w2 && k1 == k2
    {
      MatchupIdInjective(w1 + 1, k1 + 1, w2 + 1, k2 + 1);
    }
  }

  /** The page as first shown: the schedule, with only week 1 expanded. */
  function InitialPage(table: seq<seq<Pairing>>): (r: Page)
    ensures r.expanded == {1} && r.editor == Idle
    ensures r.weeks == Schedule(table)
  {
    Page(Schedule(table), {1}, Idle)
  }

  // ---------------------------------------------------------------------------
  // Week panels
  // ---------------------------------------------------------------------------

  /** `toggleWeek`: opens a closed week panel or closes an open one. */
  function ToggleWeek(page: Page, week: int): (r: Page)
    ensures week in r.expanded <==> week !in page.expanded
    ensures forall other :: other != week ==> (other in r.expanded <==> other in page.expanded)
    ensures r.weeks == page.weeks && r.editor == page.editor
  {
    page.(expanded := Toggle(page.expanded, week))
  }

  lemma ToggleWeekTwice(page: Page, week: int)
    ensures ToggleWeek(ToggleWeek(page, week), week) == page
  {
    ToggleTwice(page.expanded, week);
  }

  // ---------------------------------------------------------------------------
  // Updating one matchup
  // ---------------------------------------------------------------------------

  /** The three kinds of save, each replacing some fields of one matchup. */
  datatype Change =
    | SetWriteup(text: string)
    | SetTeams(team1: string, team2: string)
    | SetPrediction(prediction: Prediction)

  function Apply(m: Matchup, c: Change): (r: Matchup)
    ensures r.id == m.id
    ensures c.SetWriteup? ==> r.writeup == c.text && r.team1 == m.team1 && r.team2 == m.team2 && r.prediction == m.prediction
    ensures c.SetTeams? ==> r.team1 == c.team1 && r.team2 == c.team2 && r.writeup == m.writeup && r.prediction == m.prediction
    ensures c.SetPrediction? ==> r.prediction == Some(c.prediction) && r.team1 == m.team1 && r.team2 == m.team2 && r.writeup == m.writeup
  {
    match c
    case SetWriteup(text) => m.(writeup := text)
    case SetTeams(t1, t2) => m.(team1 := t1, team2 := t2)
    case SetPrediction(p) => m.(prediction := Some(p))
  }

  /** Whether a save aimed at (`weekNumber`, `matchupId`) touches matchup k of week w. */
  predicate Targets(weeks: seq<Week>, weekNumber: int, matchupId: string, w: int, k: int)
    requires 0 <= w < |weeks| && 0 <= k < |weeks[w].matchups|
  {
    weeks[w].week == weekNumber && weeks[w].matchups[k].id == matchupId
  }

  /** Both schedules have the same weeks, in the same order, with the same
      matchup ids in the same places. */
  predicate SameShape(a: seq<Week>, b: seq<Week>) {
    |a| == |b| &&
    forall w :: 0 <= w < |a| ==>
      a[w].week == b[w].week && |a[w].matchups| == |b[w].matchups| &&
      forall k :: 0 <= k < |a[w].matchups| ==> a[w].matchups[k].id == b[w].matchups[k].id
  }

  function UpdateWeek(week: Week, matchupId: string, c: Change): (r: Week)
    ensures r.week == week.week && |r.matchups| == |week.matchups|
    ensures forall k :: 0 <= k < |week.matchups| ==>
      r.matchups[k] == (if week.matchups[k].id == matchupId then Apply(week.matchups[k], c) else week.matchups[k])
  {
    week.(matchups := seq(|week.matchups|, k requires 0 <= k < |week.matchups| =>
      if week.matchups[k].id == matchupId then Apply(week.matchups[k], c) else week.matchups[k]))
  }

  /** The `weeks.map(week => ... matchups.map(...))` update shared by the three
      saves: every matchup with the given id in every week with the given number
      gets the change, and nothing else moves or changes. */
  function UpdateMatchup(weeks: seq<Week>, weekNumber: int, matchupId: string, c: Change): (r: seq<Week>)
    ensures SameShape(weeks, r)
    ensures forall w, k :: 0 <= w < |weeks| && 0 <= k < |weeks[w].matchups| ==>
      r[w].matchups[k] == (if Targets(weeks, weekNumber, matchupId, w, k) then Apply(weeks[w].matchups[k], c) else weeks[w].matchups[k])
  {
    seq(|weeks|, w requires 0 <= w < |weeks| =>
      if weeks[w].week == weekNumber then UpdateWeek(weeks[w], matchupId, c) else weeks[w])
  }

  /** A change that rewrites a matchup with what it already holds changes nothing. */
  lemma UpdateWithSameValue(weeks: seq<Week>, weekNumber: int, matchupId: string, c: Change)
    requires forall w, k ::
      0 <= w < |weeks| && 0 <= k < |weeks[w].matchups| && Targets(weeks, weekNumber, matchupId, w, k)
      ==> Apply(weeks[w].matchups[k], c) == weeks[w].matchups[k]
    ensures UpdateMatchup(weeks, weekNumber, matchupId, c) == weeks
  {
    var r := UpdateMatchup(weeks, weekNumber, matchupId, c);
    forall w | 0 <= w < |weeks|
      ensures r[w] == weeks[w]
    {
      assert r[w].matchups == weeks[w].matchups;
    }
  }

  // ---------------------------------------------------------------------------
  // The writeup editor
  // ---------------------------------------------------------------------------

  /** `startEditing`: opens the writeup editor; the placeholder opens as an empty buffer. */
  function StartEditing(page: Page, matchupId: string, currentText: string): (r: Page)
    ensures r.editor.editingMatchup == Some(matchupId)
    ensures currentText == Placeholder ==> r.editor.editText == ""
    ensures currentText != Placeholder ==> r.editor.editText == currentText
    ensures r.weeks == page.weeks && r.expanded == page.expanded
    ensures r.editor == page.editor.(editingMatchup := r.editor.editingMatchup, editText := r.editor.editText)
  {
    page.(editor := page.editor.(editingMatchup := Some(matchupId),
                                 editText := if currentText == Placeholder then "" else currentText))
  }

  /** `saveEdit`: stores the buffer, as typed, as the writeup of the target matchup
      and closes the writeup editor. */
  function SaveEdit(page: Page, weekNumber: int, matchupId: string): (r: Page)
    ensures SameShape(page.weeks, r.weeks)
    ensures forall w, k :: 0 <= w < |page.weeks| && 0 <= k < |page.weeks[w].matchups| ==>
      var m := page.weeks[w].matchups[k];
      if Targets(page.weeks, weekNumber, matchupId, w, k) then
        r.weeks[w].matchups[k] == m.(writeup := page.editor.editText)
      else r.weeks[w].matchups[k] == m
    ensures r.expanded == page.expanded
    ensures r.editor == page.editor.(editingMatchup := None, editText := "")
  {
    Page(UpdateMatchup(page.weeks, weekNumber, matchupId, SetWriteup(page.editor.editText)),
         page.expanded,
         page.editor.(editingMatchup := None, editText := ""))
  }

  /** Opening the editor on a matchup and saving without typing keeps a real
      writeup as it was, but turns the placeholder into an empty writeup. */
  lemma UntouchedWriteupEdit(page: Page, w: nat, k: nat)
    requires w < |page.weeks| && k < |page.weeks[w].matchups|
    requires UniqueMatchupIds(page.weeks)
    ensures var m := page.weeks[w].matchups[k];
      var r := SaveEdit(StartEditing(page, m.id, m.writeup), page.weeks[w].week, m.id);
      (m.writeup != Placeholder ==> r.weeks == page.weeks) &&
      (m.writeup == Placeholder ==> r.weeks[w].matchups[k].writeup == "")
  {
    var m := page.weeks[w].matchups[k];
    var started := StartEditing(page, m.id, m.writeup);
    if m.writeup != Placeholder {
      forall w2, k2 | 0 <= w2 < |page.weeks| && 0 <= k2 < |page.weeks[w2].matchups| &&
        Targets(page.weeks, page.weeks[w].week, m.id, w2, k2)
        ensures Apply(page.weeks[w2].matchups[k2], SetWriteup(m.writeup)) == page.weeks[w2].matchups[k2]
      {
        assert w2 == w && k2 == k;
      }
      UpdateWithSameValue(page.weeks, page.weeks[w].week, m.id, SetWriteup(m.writeup));
    }
  }

  // ---------------------------------------------------------------------------
  // The team-name editor
  // ---------------------------------------------------------------------------

  /** `startEditingTeams`: opens the team editor with the current names. */
  function StartEditingTeams(page: Page, matchupId: string, team1: string, team2: string): (r: Page)
    ensures r.editor.editingTeams == Some(matchupId)
    ensures r.editor.editTeam1 == team1 && r.editor.editTeam2 == team2
    ensures r.weeks == page.weeks && r.expanded == page.expanded
    ensures r.editor.editingMatchup == page.editor.editingMatchup && r.editor.editText == page.editor.editText
    ensures r.editor.editingPrediction == page.editor.editingPrediction
    ensures r.editor.predictionWinner == page.editor.predictionWinner && r.editor.predictionMargin == page.editor.predictionMargin
  {
    page.(editor := page.editor.(editingTeams := Some(matchupId), editTeam1 := team1, editTeam2 := team2))
  }

  /** `saveTeamEdit`: stores both names on the target matchup and closes the team editor. */
  function SaveTeamEdit(page: Page, weekNumber: int, matchupId: string): (r: Page)
    ensures SameShape(page.weeks, r.weeks)
    ensures forall w, k :: 0 <= w < |page.weeks| && 0 <= k < |page.weeks[w].matchups| ==>
      var m := page.weeks[w].matchups[k];
      if Targets(page.weeks, weekNumber, matchupId, w, k) then
        r.weeks[w].matchups[k] == m.(team1 := page.editor.editTeam1, team2 := page.editor.editTeam2)
      else r.weeks[w].matchups[k] == m
    ensures r.expanded == page.expanded
    ensures r.editor == page.editor.(editingTeams := None, editTeam1 := "", editTeam2 := "")
  {
    Page(UpdateMatchup(page.weeks, weekNumber, matchupId, SetTeams(page.editor.editTeam1, page.editor.editTeam2)),
         page.expanded,
         page.editor.(editingTeams := None, editTeam1 := "", editTeam2 := ""))
  }

  /** Opening the team editor and saving without typing changes no matchup. */
  lemma UntouchedTeamEdit(page: Page, w: nat, k: nat)
    requires w < |page.weeks| && k < |page.weeks[w].matchups|
    requires UniqueMatchupIds(page.weeks)
    ensures var m := page.weeks[w].matchups[k];
      SaveTeamEdit(StartEditingTeams(page, m.id, m.team1, m.team2), page.weeks[w].week, m.id).weeks == page.weeks
  {
    var m := page.weeks[w].matchups[k];
    forall w2, k2 | 0 <= w2 < |page.weeks| && 0 <= k2 < |page.weeks[w2].matchups| &&
      Targets(page.weeks, page.weeks[w].week, m.id, w2, k2)
      ensures Apply(page.weeks[w2].matchups[k2], SetTeams(m.team1, m.team2)) == page.weeks[w2].matchups[k2]
    {
      assert w2 == w && k2 == k;
    }
    UpdateWithSameValue(page.weeks, page.weeks[w].week, m.id, SetTeams(m.team1, m.team2));
  }

  // ---------------------------------------------------------------------------
  // The prediction editor
  // ---------------------------------------------------------------------------

  /** `savePredictionEdit`: `parsedMargin` is what `parseFloat` makes of the margin
      buffer (None for NaN). The prediction is stored only when a winner is chosen
      and the margin parses; the prediction editor closes either way. */
  function SavePredictionEdit(page: Page, weekNumber: int, matchupId: string, parsedMargin: Option<real>): (r: Page)
    ensures SameShape(page.weeks, r.weeks)
    ensures page.editor.predictionWinner == [] || parsedMargin.None? ==> r.weeks == page.weeks
    ensures page.editor.predictionWinner != [] && parsedMargin.Some? ==>
      forall w, k :: 0 <= w < |page.weeks| && 0 <= k < |page.weeks[w].matchups| ==>
        var m := page.weeks[w].matchups[k];
        if Targets(page.weeks, weekNumber, matchupId, w, k) then
          r.weeks[w].matchups[k] == m.(prediction := Some(Prediction(page.editor.predictionWinner, parsedMargin.value)))
        else r.weeks[w].matchups[k] == m
    ensures r.expanded == page.expanded
    ensures r.editor == page.editor.(editingPrediction := None, predictionWinner := "", predictionMargin := "")
  {
    var weeks :=
      if page.editor.predictionWinner != [] && parsedMargin.Some? then
        UpdateMatchup(page.weeks, weekNumber, matchupId,
                      SetPrediction(Prediction(page.editor.predictionWinner, parsedMargin.value)))
      else page.weeks;
    Page(weeks, page.expanded,
         page.editor.(editingPrediction := None, predictionWinner := "", predictionMargin := ""))
  }

  /** A save empties the prediction buffers, so saving again right away
      changes nothing, whatever the second parse gives. */
  lemma SavePredictionSettles(page: Page, weekNumber: int, matchupId: string, first: Option<real>, second: Option<real>)
    ensures var once := SavePredictionEdit(page, weekNumber, matchupId, first);
      SavePredictionEdit(once, weekNumber, matchupId, second) == once
  {
  }

  // ---------------------------------------------------------------------------
  // Cancelling
  // ---------------------------------------------------------------------------

  /** `cancelEdit`: closes all three editors and empties every buffer. */
  function CancelEdit(page: Page): (r: Page)
    ensures r.editor.editingMatchup.None? && r.editor.editingTeams.None? && r.editor.editingPrediction.None?
    ensures r.editor.editText == [] && r.editor.editTeam1 == [] && r.editor.editTeam2 == []
    ensures r.editor.predictionWinner == [] && r.editor.predictionMargin == []
    ensures r.weeks == page.weeks && r.expanded == page.expanded
  {
    page.(editor := Idle)
  }

  /** Opening any editor from an idle page and cancelling gives the page back. */
  lemma CancelUndoesStart(page: Page, matchupId: string, text: string, team1: string, team2: string)
    requires page.editor == Idle
    ensures CancelEdit(StartEditing(page, matchupId, text)) == page
    ensures CancelEdit(StartEditingTeams(page, matchupId, team1, team2)) == page
  {
  }
}

=== FILE: wrappers.dfy ===
/** Optional values, used for the JavaScript patterns that yield "nothing":
    `find` returning `undefined`, `findIndex` returning -1, and `parseInt` /
    `parseFloat` returning `NaN`. */
module Wrappers {

  datatype Option<+T> = None | Some(value: T)
}
